=== FILE: README.md ===
# Property injection in hmlb/Reflection, modelled in Dafny

hmlb/Reflection (namespace `Innmind\Reflection`) fills PHP objects with
property values without the caller knowing how each property is written.
A builder stages property/value pairs. When it builds, each pending
property goes through the first *injection strategy* that supports it.
The strategies are:

- a setter `set` + camelize(property);
- a method named lcfirst(camelize(property)) that takes a parameter;
- a direct write of a declared field.

When no strategy fits, the build fails with `Property "x" cannot be injected`.
Extraction mirrors this with a getter, a named method or public field, and
a direct field read.

`ReflectionObject` wraps an existing object. `ReflectionClass` wraps a class
name: it asks an *instanciator* for a new instance built from all pending
properties, and hands only the properties that are not constructor
parameters on to a `ReflectionObject`.

The model replaces PHP reflection with an immutable object record:

- an identity;
- declared fields with visibility and value;
- a method table, mapping a name to a parameter count and a behaviour;
- a log of the calls made on the object.

Both builders are immutable values. Every PHP exception becomes the `Err`
case of a `Result`.

| file | module | models |
|---|---|---|
| `results.dfy` | `Results` | `InvalidArgumentException` and `LogicException` as error values; `Result` and `Option` |
| `naming.dfy` | `Naming` | `camelize` and `lcfirst` of property names |
| `objects.dfy` | `Objects` | the object record, field writes and method calls |
| `properties.dfy` | `Properties` | the ordered property collection with `set`, `merge` and `filter`, and the map each denotes |
| `typed.dfy` | `TypedCollections` | a strategy collection with its declared element interface |
| `injection.dfy` | `InjectionStrategies` | the setter, named-method and field strategies; first-match injection of one property |
| `extraction.dfy` | `ExtractionStrategies` | the getter, named-method and field extraction strategies; extraction of a list of names |
| `reflection_object.dfy` | `ReflectionObject` | the object builder: construction, `withProperty`, `withProperties`, `buildObject`, `extract` |
| `reflection_class.dfy` | `ReflectionClass` | the class builder: construction, `withProperty`, `withProperties`, `buildObject` |
| `round_trip.dfy` | `RoundTrip` | injection followed by extraction gives the value back |
| `scenarios.dfy` | `Scenarios` | the behaviours of `ReflectionObjectTest`, and the constructor-parameter rule, on concrete objects |

## Model

| member | source | states |
|---|---|---|
| Naming.Camelize | InjectionStrategy/SetterStrategy.php:28 | a camelized property name contains no `_` or space and does not start with a lower-case letter, so `set` + camelize(p) reads as a setter name |
| Naming.AccessorNameOfLowerCamel | InjectionStrategy/NamedMethodStrategy.php:29-31 | a property already in lower camel form is its own method name, e.g. property `d` is served by method `d` |
| Objects.WriteField | Tests/ReflectionObjectTest.php:81-88 | writing a field sets that field to the value, keeps a declared field's visibility, declares an undeclared one, and leaves identity, methods, call log and every other field as they were |
| Objects.Invoke | InjectionStrategy/SetterStrategy.php:45 | calling a method keeps the object's identity and method table, logs exactly that call with exactly those arguments, and only an assigning method changes fields |
| Properties.Set | ReflectionClass.php:49 | `set` keeps the key order when the key is present and appends the key otherwise |
| Properties.SetDenotes | ReflectionClass.php:49 | `set` denotes the map update p ↦ v, overwriting an earlier value |
| Properties.Merge | ReflectionClass.php:66 | `merge` keeps the receiver's keys first, in their order; keys it adds come after them |
| Properties.MergeKeys | ReflectionClass.php:66 | the merged keys are the receiver's keys followed by the merged collection's keys the receiver lacked, in the merged collection's order |
| Properties.MergeDenotes | ReflectionClass.php:66 | `merge` denotes map union in which the merged collection's keys win and every other key is kept |
| Properties.FilterDenotes | ReflectionClass.php:113-117 | the filter denotes the property map minus the excluded names |
| Properties.Filter | ReflectionClass.php:113-117 | a key survives the filter iff it was pending and is not excluded; the filter never adds entries, and the surviving keys keep their pending order |
| InjectionStrategies.SetterName | InjectionStrategy/SetterStrategy.php:27-29 | the setter name is `set` followed by a separator-free, capitalised camel name |
| InjectionStrategies.Supports | InjectionStrategy/SetterStrategy.php:22-30 | the setter strategy supports a property iff the object has the method `set` + camelize(p); the named-method strategy (NamedMethodStrategy.php:25-35) iff the object has the lcfirst(camelize(p)) method and it takes a parameter; the field strategy iff the field is declared |
| InjectionStrategies.SetterIgnoresParameterCount | InjectionStrategy/SetterStrategy.php:22-30 | a setter is supported and called whatever its parameter count: only the method name is checked |
| InjectionStrategies.SupportsIgnoresValue | InjectionStrategy/NamedMethodStrategy.php:25-35 | no strategy's `supports` depends on the value being injected |
| InjectionStrategies.ZeroParameterMethodUnsupported | InjectionStrategy/NamedMethodStrategy.php:33-34 | a method named lcfirst(camelize(p)) with no parameter is not supported, and `inject` then raises `LogicException` |
| InjectionStrategies.Inject | InjectionStrategy/SetterStrategy.php:36-46 | `inject` raises a bare `LogicException` exactly when `supports` is false, before touching the object. Otherwise the setter (or, as in NamedMethodStrategy.php:40-51, the lcfirst(camelize) method) is called once with exactly the value, and the object returned is the one that call leaves behind; the field strategy writes that field alone |
| InjectionStrategies.InjectProperty | Tests/ReflectionObjectTest.php:131-140 | one property fails with `Property "x" cannot be injected` iff no strategy of the list supports it; otherwise the first supporting strategy injects it |
| InjectionStrategies.DefaultPrecedence | Tests/ReflectionObjectTest.php:55-89 | with the default list a setter wins over a named method with parameters, which wins over a declared field; with none of these, injection fails |
| ExtractionStrategies.Supports | Tests/ReflectionObjectTest.php:211-225 | the getter strategy supports a property iff the object has a parameterless `get` + camelize(p) method; the named-method strategy iff the object has a parameterless lcfirst(camelize(p)) method or a public field p; the field strategy iff the field is declared |
| ExtractionStrategies.Extract | Tests/ReflectionObjectTest.php:211-225 | an unsupported extraction raises `LogicException`. A getter's result is what is read; the named-method strategy returns the parameterless method's result when there is one and the public field's value otherwise; the field strategy returns the field's value |
| ExtractionStrategies.ExtractProperty | Tests/ReflectionObjectTest.php:238-245 | one name fails with `Property "x" cannot be extracted` iff no strategy supports it; otherwise the first supporting strategy reads it |
| ExtractionStrategies.DefaultPrecedence | Tests/ReflectionObjectTest.php:211-235 | with the default list a getter wins, then a parameterless named method or public field, then any declared field |
| ExtractionStrategies.ExtractInto | Tests/ReflectionObjectTest.php:226-235 | gathering never drops an accumulated key and adds at most one entry per requested name; a failure needs a non-empty request and is a `LogicException` (which name it reports is stated by `ExtractIntoFirstFailure`) |
| ExtractionStrategies.ExtractIntoValues | Tests/ReflectionObjectTest.php:226-235 | after a successful gathering every requested name maps to the value its first supporting strategy reads, and every accumulated key that was not requested keeps its value |
| ExtractionStrategies.ExtractIntoKeysWithin | Tests/ReflectionObjectTest.php:226-235 | every gathered key was either gathered before or requested |
| ExtractionStrategies.ExtractIntoFirstFailure | Tests/ReflectionObjectTest.php:238-245 | a failed extraction reports the first requested name no strategy can read |
| ExtractionStrategies.ExtractIntoKeys | Tests/ReflectionObjectTest.php:228-235 | distinct names not gathered before are added after the earlier keys, in requested order |
| ExtractionStrategies.ExtractAll | Tests/ReflectionObjectTest.php:226-235 | extraction fails iff some name is unreadable, naming the first one. On success every requested name maps to the value its first supporting strategy reads, and distinct names come back in requested order |
| ReflectionObject.New | Tests/ReflectionObjectTest.php:32-38 | a non-object target or a wrongly typed strategy collection raises `InvalidArgumentException`; otherwise nothing is pending and each omitted strategy list is the default |
| ReflectionObject.WithProperty | Tests/ReflectionObjectTest.php:40-53 | the new builder's properties are the old map with p ↦ v; the target and strategies are unchanged, and the receiver is a value that stays as it was |
| ReflectionObject.WithProperties | Tests/ReflectionObjectTest.php:117-126 | the new builder's properties are the old ones merged with the given ones, whose keys win; the old keys stay first and the given collection's new keys follow in its order; nothing else changes |
| ReflectionObject.InjectAll | Tests/ReflectionObjectTest.php:81-88 | properties are injected in staging order, each by a strategy of the list. The object keeps its identity and methods, and the build succeeds iff every property was injected |
| ReflectionObject.InjectAllTrace | Tests/ReflectionObjectTest.php:81-88 | there is a sequence of intermediate objects from the original to the result in which each injected property was injected, by the recorded strategy, into the object as the previous injections left it: the first strategy supporting it there |
| ReflectionObject.InjectAllFailure | Tests/ReflectionObjectTest.php:131-157 | a build that stops does so at the first property not injected, with the message naming it, because no strategy supports it on the object as left by the earlier injections |
| ReflectionObject.BuildObject | Tests/ReflectionObjectTest.php:21-30 | building returns the same object; with nothing pending it is untouched. On success exactly the pending properties were injected, in order. On failure the build stopped at the first pending property not injected, names it in the message, and no strategy supports it on the returned object. Each injection is the first-match injection into the object as the earlier injections left it |
| ReflectionObject.Extract | Tests/ReflectionObjectTest.php:211-245 | `extract` fails iff some requested name is unreadable, naming the first one. On success every requested name maps to the value the builder's first supporting extraction strategy reads, only requested names come back, and distinct names come back in requested order |
| ReflectionClass.New | ReflectionClass.php:19-35 | a supplied strategy collection typed with another interface raises `InvalidArgumentException`; omitted arguments become no properties, the default strategies and `ReflectionInstanciator` |
| ReflectionClass.WithProperty | ReflectionClass.php:45-53 | properties become the old map with p ↦ v, overwriting; class name, strategies and instanciator are unchanged |
| ReflectionClass.WithProperties | ReflectionClass.php:62-70 | properties become the old ones merged with the given ones, whose keys win; the old keys stay first and the given collection's new keys follow in its order; class name, strategies and instanciator are unchanged |
| ReflectionClass.Remaining | ReflectionClass.php:110-117 | the properties left for injection are exactly the pending ones minus the names the instanciator reports as constructor parameters, in their pending order |
| ReflectionClass.BuildObject | ReflectionClass.php:107-125 | the result is the object the instanciator built from the full, unfiltered properties. No constructor parameter is ever injected by a strategy, and a successful build injects exactly the remaining properties. A failed build stops at the first remaining property not injected, names it, and no strategy supports it on the returned object. The injections start from the instanciated object, follow the pending order of the remaining properties, and each goes into the object the previous ones left |
| ReflectionClass.AllConstructorParameters | ReflectionClass.php:113-124 | when every pending property is a constructor parameter, no strategy is consulted and the instanciated object is returned untouched |
| RoundTrip.FieldRoundTrip | Tests/ReflectionObjectTest.php:55-88 | a declared field with no setter, getter or same-named method is written by the field strategy and reads back the injected value |
| RoundTrip.AccessorRoundTrip | Tests/ReflectionObjectTest.php:63-66 | a setter storing into a field, paired with a getter returning it, is used for injection and gives the injected value back on extraction |
| Scenarios.BuildWithoutProperties | Tests/ReflectionObjectTest.php:21-30 | a builder over a fresh `stdClass` holds no properties and building gives that very object back |
| Scenarios.RejectNonObject | Tests/ReflectionObjectTest.php:32-38 | wrapping an array raises `InvalidArgumentException` |
| Scenarios.AddPropertyToInject | Tests/ReflectionObjectTest.php:40-53 | `withProperty('foo', 'bar')` gives a different builder holding exactly foo ↦ bar while the receiver still holds nothing |
| Scenarios.Build | Tests/ReflectionObjectTest.php:55-89 | a and b are written as fields, c through `setC` and d through `d($value)`; `dump()` then gives [1, 2, 3, 4] |
| Scenarios.BuildWithProperties | Tests/ReflectionObjectTest.php:91-129 | two chained `withProperties` calls stage exactly what four `withProperty` calls stage, so the build is the same |
| Scenarios.ThrowWhenPropertyNotFound | Tests/ReflectionObjectTest.php:131-140 | on a fresh `stdClass`, building with property a fails with `Property "a" cannot be injected` |
| Scenarios.ThrowWhenNamedMethodHasNoParameter | Tests/ReflectionObjectTest.php:142-157 | a method `a()` without parameter does not make a injectable: the build fails with the same message |
| Scenarios.StrategyLists | Tests/ReflectionObjectTest.php:159-209 | the default injection list is setter, named method, field and the default extraction list is getter, named method, field, both correctly typed; a supplied list is kept as given |
| Scenarios.ExtractInRequestedOrder | Tests/ReflectionObjectTest.php:211-236 | extracting a, b and c gives a ↦ 24, b ↦ 42, c ↦ 66 in that order |
| Scenarios.ThrowWhenCannotExtractProperty | Tests/ReflectionObjectTest.php:238-245 | extracting a from a fresh `stdClass` fails with `Property "a" cannot be extracted` |
| Scenarios.ConstructorParameterNotReinjected | ReflectionClass.php:107-124 | a value handed to the constructor is not pushed through the class's setter as well: no call is made and the field holds the constructor's value |
| Scenarios.ClassBuilderConstruction | ReflectionClass.php:19-35 | a strategy collection typed with another interface is refused; with no arguments the builder holds no properties, the default strategies and `ReflectionInstanciator` |

## Left out

- PHP runtime reflection (`\ReflectionObject`, `hasMethod`, `getNumberOfParameters`, dynamic calls, private field writes) is replaced by the object record. A method's behaviour is one of four shapes: assign a field, return a field, return a constant, do nothing.
- PHP looks methods up case-insensitively; the model matches method names exactly.
- `StringPrimitive::camelize` and `lcfirst` come from Innmind\Immutable, which is not part of this model. The model assumes camelize splits on `_` and space, upper-cases a segment's first character when it is a lower-case ASCII letter (any other character is kept as is), and joins the segments. `lcfirst` is assumed to lower-case a first character that is an upper-case ASCII letter.
- The code of `ReflectionObject.php`, of the field injection strategy and of the three extraction strategies is not available here. They are modelled from `Tests/ReflectionObjectTest.php`, and where the tests are silent the model makes these assumptions of its own:
  - field injection supports a declared field of any visibility;
  - a getter must take no parameter;
  - a named method for extraction must take no parameter, or else a public field of that name is read.
- Extraction approximates "no required parameter" by "no parameter", since the record keeps a single parameter count.
- `supports` checks only the setter's name, not its parameter count (SetterStrategy.php:26-30). PHP accepts an extra argument to a user-defined method, so a setter declared without a parameter is supported and called with the value, and the call succeeds; the model does the same.
- `ReflectionInstanciator` is not part of this model. `ReflectionClass.BuildObject` takes its behaviour (build an instance, list constructor parameters) as a parameter. Any instanciator is assumed to return an object.
- A setter or named method that requires two or more parameters is called with one argument. PHP rejects that call with `ArgumentCountError`, while the model's call succeeds, because the object record keeps no count of required parameters.
- Innmind `Collection` keys are property-name strings. PHP's renumbering of integer-like string keys in `array_merge` is not modelled.
- The strategy lists are a closed set of strategies. Caller-defined `InjectionStrategyInterface` implementations are not modelled; a supplied list is any sequence of the known ones.
- `withProperty` and `withProperties` re-run the constructor, including its type check. On a builder that was constructed successfully this check cannot fail, so the model copies the builder instead.
- `getProperties`, `getInjectionStrategies` and `getInstanciator` are plain field reads of the builder datatypes.
- PHP objects are shared references, so injections made before a failing property remain visible. `ReflectionObject.BuildObject` therefore returns the object as the build left it together with the error, not just the error.
- ReflectionObject.Extract: the builder keeps a copy of the object it wraps, not a shared reference. After a build, or after the caller changes the object, `Extract` and another `BuildObject` on that builder see the object as it was wrapped, while PHP sees the changed object.
- InjectionStrategies.Inject: methods carry no visibility in the object record. PHP raises an `Error` when a setter (SetterStrategy.php:45) or named method (NamedMethodStrategy.php:50) found by `hasMethod` is private or protected; the model treats every method as public, so such a call succeeds.
- ExtractionStrategies.Extract: the object as left by a getter or named-method call is discarded, so calls made during extraction are not added to the call log.

=== FILE: extraction.dfy ===
/**
  The extraction strategies, mirror image of the injection ones: `Getter`
  reads through `get` + camelize(property) taking no parameter,
  `NamedMethod` through a parameterless method named
  lcfirst(camelize(property)) or else a public field of that name, and
  `Reflection` reads a declared field of any visibility.
 */
module ExtractionStrategies {
  import opened Results
  import opened Objects
  import opened Naming
  import opened TypedCollections
  import opened Properties

  datatype Strategy = Getter | NamedMethod | Reflection

  /** The strategy list used when none is supplied, in precedence order. */
  const Defaults: Typed<Strategy> := Typed(ExtractionStrategyInterface, [Getter, NamedMethod, Reflection])

  function GetterName(property: PropertyName): (r: MethodName)
    ensures |r| >= 3 && r[..3] == "get"
  {
    "get" + Camelize(property)
  }

  predicate HasParameterlessMethod(o: Obj, m: MethodName) {
    m in o.methods && o.methods[m].parameters == 0
  }

  predicate HasPublicField(o: Obj, f: PropertyName) {
    f in o.fields && o.fields[f].visibility == Public
  }

  function Supports(s: Strategy, o: Obj, property: PropertyName): (r: bool)
    ensures s == NamedMethod && HasPublicField(o, property) ==> r
    ensures s == Getter ==> (r <==> HasParameterlessMethod(o, GetterName(property)))
    ensures s == NamedMethod ==>
      (r <==> HasParameterlessMethod(o, AccessorName(property)) || HasPublicField(o, property))
    ensures r && s != Reflection ==> property in o.fields || AccessorName(property) in o.methods || GetterName(property) in o.methods
    ensures s == Reflection ==> (r <==> property in o.fields)
  {
    match s
    case Getter => HasParameterlessMethod(o, GetterName(property))
    case NamedMethod => HasParameterlessMethod(o, AccessorName(property)) || HasPublicField(o, property)
    case Reflection => property in o.fields
  }

  /**
    Reads `property` out of `o` with `s`; an unsupported property raises a
    bare `LogicException`. A method is called without arguments and its
    result returned; a field read returns the field's value.
   */
  function Extract(s: Strategy, o: Obj, property: PropertyName): (r: Result<Value>)
    ensures r.Err? <==> !Supports(s, o, property)
    ensures r.Err? ==> r.error == Logic("")
    ensures r.Ok? && s == Reflection ==> r.value == o.fields[property].value
    ensures r.Ok? && s == Getter ==> r.value == Invoke(o, GetterName(property), []).1
    ensures r.Ok? && s == NamedMethod && HasParameterlessMethod(o, AccessorName(property)) ==>
      r.value == Invoke(o, AccessorName(property), []).1
    ensures r.Ok? && s == NamedMethod && !HasParameterlessMethod(o, AccessorName(property)) ==>
      r.value == o.fields[property].value
  {
    if !Supports(s, o, property) then Err(Logic(""))
    else match s
      case Getter => Ok(Invoke(o, GetterName(property), []).1)
      case NamedMethod =>
        var m := AccessorName(property);
        if HasParameterlessMethod(o, m) then Ok(Invoke(o, m, []).1)
        else Ok(o.fields[property].value)
      case Reflection => Ok(o.fields[property].value)
  }

  /** The message of the `LogicException` raised when no strategy applies. */
  function CannotExtract(property: PropertyName): string {
    "Property \"" + property + "\" cannot be extracted"
  }

  /** The index of the first strategy of `ss`, from `from` on, that supports the property. */
  function FirstMatchFrom(ss: seq<Strategy>, o: Obj, property: PropertyName, from: nat): (r: Option<nat>)
    requires from <= |ss|
    ensures r.Some? ==> from <= r.value < |ss| && Supports(ss[r.value], o, property)
    ensures r.Some? ==> forall j :: from <= j < r.value ==> !Supports(ss[j], o, property)
    ensures r.None? <==> forall j :: from <= j < |ss| ==> !Supports(ss[j], o, property)
    decreases |ss| - from
  {
    if from == |ss| then None
    else if Supports(ss[from], o, property) then Some(from)
    else FirstMatchFrom(ss, o, property, from + 1)
  }

  function FirstMatch(ss: seq<Strategy>, o: Obj, property: PropertyName): Option<nat> {
    FirstMatchFrom(ss, o, property, 0)
  }

  /**
    Extracts one property with the first strategy of `ss` that supports it;
    when none does, raises `LogicException` with message
    `Property "x" cannot be extracted`.
   */
  function ExtractProperty(ss: seq<Strategy>, o: Obj, property: PropertyName): (r: Result<Value>)
    ensures r.Err? <==> forall s :: s in ss ==> !Supports(s, o, property)
    ensures r.Err? ==> r.error == Logic(CannotExtract(property))
    ensures r.Ok? ==> FirstMatch(ss, o, property).Some? && r == Extract(ss[FirstMatch(ss, o, property).value], o, property)
  {
    match FirstMatch(ss, o, property)
    case None => Err(Logic(CannotExtract(property)))
    case Some(i) => Extract(ss[i], o, property)
  }

  predicate NoDuplicates(names: seq<PropertyName>) {
    forall i, j :: 0 <= i < j < |names| ==> names[i] != names[j]
  }

  /**
    Extracts `names` in order, adding each to `acc`; fails on the first name
    no strategy can read.
   */
  function ExtractInto(ss: seq<Strategy>, o: Obj, names: seq<PropertyName>, acc: Props): (r: Result<Props>)
    ensures r.Ok? ==> |acc| <= |r.value| <= |acc| + |names|
    ensures r.Ok? ==> forall k :: k in Keys(acc) ==> k in Keys(r.value)
    ensures r.Err? ==> names != [] && r.error.Logic?
    decreases |names|
  {
    if names == [] then Ok(acc)
    else
      match ExtractProperty(ss, o, names[0])
      case Err(e) => Err(e)
      case Ok(v) => ExtractInto(ss, o, names[1..], Set(acc, names[0], v))
  }

  /** One step of `ExtractInto`: the first name is read and stored, then the rest follow. */
  lemma ExtractIntoStep(ss: seq<Strategy>, o: Obj, names: seq<PropertyName>, acc: Props, v: Value)
    requires names != []
    requires ExtractProperty(ss, o, names[0]) == Ok(v)
    ensures ExtractInto(ss, o, names, acc) == ExtractInto(ss, o, names[1..], Set(acc, names[0], v))
  {
  }

  /** When the first name cannot be read, its failure is the result. */
  lemma ExtractIntoStop(ss: seq<Strategy>, o: Obj, names: seq<PropertyName>, acc: Props, e: Error)
    requires names != []
    requires ExtractProperty(ss, o, names[0]) == Err(e)
    ensures ExtractInto(ss, o, names, acc) == Err(e)
  {
  }

  /** A successful extraction read every requested name. */
  lemma {:induction false} ExtractIntoReadsAll(ss: seq<Strategy>, o: Obj, names: seq<PropertyName>, acc: Props)
    ensures ExtractInto(ss, o, names, acc).Ok? ==> forall i :: 0 <= i < |names| ==> ExtractProperty(ss, o, names[i]).Ok?
    decreases |names|
  {
    var first := if names == [] then Err(InvalidArgument) else ExtractProperty(ss, o, names[0]);
    if first.Ok? {
      var rest := names[1..];
      ExtractIntoReadsAll(ss, o, rest, Set(acc, names[0], first.value));
      assert forall i :: 0 < i < |names| ==> names[i] == rest[i - 1];
    }
  }

  /** `names[i]` is the first of `names` that no strategy reads, and `e` is the error reporting it. */
  predicate FirstUnreadable(ss: seq<Strategy>, o: Obj, names: seq<PropertyName>, i: int, e: Error) {
    && 0 <= i < |names| && ExtractProperty(ss, o, names[i]).Err?
    && (forall j :: 0 <= j < i ==> ExtractProperty(ss, o, names[j]).Ok?)
    && e == Logic(CannotExtract(names[i]))
  }

  /** A readable name put in front moves the first unreadable one back by one place. */
  lemma FirstUnreadableShift(ss: seq<Strategy>, o: Obj, names: seq<PropertyName>, i: int, e: Error)
    requires names != [] && ExtractProperty(ss, o, names[0]).Ok?
    requires FirstUnreadable(ss, o, names[1..], i, e)
    ensures FirstUnreadable(ss, o, names, i + 1, e)
  {
    assert forall j :: 0 < j < i + 1 ==> names[j] == names[1..][j - 1];
  }

  /** A failed extraction reports the first name that could not be read. */
  lemma {:induction false} ExtractIntoFirstFailure(ss: seq<Strategy>, o: Obj, names: seq<PropertyName>, acc: Props)
    ensures var r := ExtractInto(ss, o, names, acc);
      r.Err? ==>
        exists i :: 0 <= i < |names| && ExtractProperty(ss, o, names[i]).Err?
          && (forall j :: 0 <= j < i ==> ExtractProperty(ss, o, names[j]).Ok?)
          && r.error == Logic(CannotExtract(names[i]))
    decreases |names|
  {
    var r := ExtractInto(ss, o, names, acc);
    if r.Err? {
      var i := FirstFailureAt(ss, o, names, acc);
      assert FirstUnreadable(ss, o, names, i, r.error);
    }
  }

  /** The position of the name a failed extraction reports. */
  lemma {:induction false} FirstFailureAt(ss: seq<Strategy>, o: Obj, names: seq<PropertyName>, acc: Props) returns (i: int)
    requires ExtractInto(ss, o, names, acc).Err?
    ensures FirstUnreadable(ss, o, names, i, ExtractInto(ss, o, names, acc).error)
    decreases |names|
  {
    var first := ExtractProperty(ss, o, names[0]);
    if first.Err? {
      ExtractIntoStop(ss, o, names, acc, first.error);
      i := 0;
    } else {
      ExtractIntoStep(ss, o, names, acc, first.value);
      var k := FirstFailureAt(ss, o, names[1..], Set(acc, names[0], first.value));
      FirstUnreadableShift(ss, o, names, k, ExtractInto(ss, o, names, acc).error);
      i := k + 1;
    }
  }

  /** Every requested name maps to its extracted value; names already gathered and not requested keep theirs. */
  lemma {:induction false} ExtractIntoValues(ss: seq<Strategy>, o: Obj, names: seq<PropertyName>, acc: Props)
    ensures var r := ExtractInto(ss, o, names, acc);
      r.Ok? ==>
        && (forall i :: 0 <= i < |names| ==>
              names[i] in ToMap(r.value) && ExtractProperty(ss, o, names[i]) == Ok(ToMap(r.value)[names[i]]))
        && (forall k :: k in ToMap(acc) && k !in names ==> k in ToMap(r.value) && ToMap(r.value)[k] == ToMap(acc)[k])
    decreases |names|
  {
    var r := ExtractInto(ss, o, names, acc);
    if names != [] && r.Ok? {
      var v := ExtractProperty(ss, o, names[0]).value;
      var rest := names[1..];
      var acc' := Set(acc, names[0], v);
      SetDenotes(acc, names[0], v);
      ExtractIntoValues(ss, o, rest, acc');
      ExtractIntoStep(ss, o, names, acc, v);
      forall i | 0 <= i < |names|
        ensures names[i] in ToMap(r.value) && ExtractProperty(ss, o, names[i]) == Ok(ToMap(r.value)[names[i]])
      {
        if i > 0 {
          assert names[i] == rest[i - 1];
        } else if names[0] !in rest {
          assert names[0] in ToMap(acc');
        }
      }
    }
  }

  /** Every gathered key was either accumulated before or requested. */
  lemma {:induction false} ExtractIntoKeysWithin(ss: seq<Strategy>, o: Obj, names: seq<PropertyName>, acc: Props)
    ensures var r := ExtractInto(ss, o, names, acc);
      r.Ok? ==> forall k :: k in Keys(r.value) ==> k in Keys(acc) || k in names
    decreases |names|
  {
    var r := ExtractInto(ss, o, names, acc);
    if names != [] && r.Ok? {
      var v := ExtractProperty(ss, o, names[0]).value;
      var rest := names[1..];
      var acc' := Set(acc, names[0], v);
      ExtractIntoKeysWithin(ss, o, rest, acc');
      ExtractIntoStep(ss, o, names, acc, v);
      forall k | k in Keys(r.value)
        ensures k in Keys(acc) || k in names
      {
        if k !in Keys(acc') {
          assert k in rest;
        }
      }
    }
  }

  /** Fresh, distinct names are gathered after the accumulated keys, in requested order. */
  lemma {:induction false} ExtractIntoKeys(ss: seq<Strategy>, o: Obj, names: seq<PropertyName>, acc: Props)
    ensures var r := ExtractInto(ss, o, names, acc);
      r.Ok? && NoDuplicates(names) && (forall i :: 0 <= i < |names| ==> names[i] !in Keys(acc)) ==>
        Keys(r.value) == Keys(acc) + names
    decreases |names|
  {
    var r := ExtractInto(ss, o, names, acc);
    var unseen := NoDuplicates(names) && (forall i :: 0 <= i < |names| ==> names[i] !in Keys(acc));
    if names != [] && r.Ok? && unseen {
      var v := ExtractProperty(ss, o, names[0]).value;
      var acc' := Set(acc, names[0], v);
      FreshNamesStep(Keys(acc), names);
      ExtractIntoKeys(ss, o, names[1..], acc');
      ExtractIntoStep(ss, o, names, acc, v);
    }
  }

  /** Peeling the first of several fresh, distinct names off keeps the rest fresh and distinct. */
  lemma FreshNamesStep(keys: seq<PropertyName>, names: seq<PropertyName>)
    requires names != [] && NoDuplicates(names)
    requires forall i :: 0 <= i < |names| ==> names[i] !in keys
    ensures names[0] !in keys
    ensures NoDuplicates(names[1..])
    ensures forall i :: 0 <= i < |names| - 1 ==> names[1..][i] !in keys + [names[0]]
    ensures keys + [names[0]] + names[1..] == keys + names
  {
    assert forall i :: 0 <= i < |names| - 1 ==> names[1..][i] == names[i + 1];
  }

  /**
    `ReflectionObject::extract`: the requested names mapped to their
    values, in requested order, or the error for the first name that
    cannot be extracted.
   */
  function ExtractAll(ss: seq<Strategy>, o: Obj, names: seq<PropertyName>): (r: Result<Props>)
    ensures r.Err? <==> exists i :: 0 <= i < |names| && ExtractProperty(ss, o, names[i]).Err?
    ensures r.Err? ==>
      exists i :: 0 <= i < |names| && ExtractProperty(ss, o, names[i]).Err?
        && (forall j :: 0 <= j < i ==> ExtractProperty(ss, o, names[j]).Ok?)
        && r.error == Logic(CannotExtract(names[i]))
    ensures r.Ok? ==> forall i :: 0 <= i < |names| ==>
      names[i] in ToMap(r.value) && ExtractProperty(ss, o, names[i]) == Ok(ToMap(r.value)[names[i]])
    ensures r.Ok? ==> forall k :: k in Keys(r.value) ==> k in names
    ensures r.Ok? && NoDuplicates(names) ==> Keys(r.value) == names
  {
    ExtractIntoReadsAll(ss, o, names, []);
    ExtractIntoFirstFailure(ss, o, names, []);
    ExtractIntoValues(ss, o, names, []);
    ExtractIntoKeysWithin(ss, o, names, []);
    ExtractIntoKeys(ss, o, names, []);
    ExtractInto(ss, o, names, [])
  }

  /** Precedence of the default list: getter, then named method or public field, then any declared field. */
  lemma DefaultPrecedence(o: Obj, property: PropertyName)
    ensures var r := ExtractProperty(Defaults.items, o, property);
      && (HasParameterlessMethod(o, GetterName(property)) ==> r == Extract(Getter, o, property))
      && (!HasParameterlessMethod(o, GetterName(property)) && Supports(NamedMethod, o, property) ==>
            r == Extract(NamedMethod, o, property))
      && (!Supports(Getter, o, property) && !Supports(NamedMethod, o, property) ==>
            (r.Ok? <==> property in o.fields) && (r.Ok? ==> r.value == o.fields[property].value))
  {
    var ss := Defaults.items;
    assert ss[0] == Getter && ss[1] == NamedMethod && ss[2] == Reflection;
  }
}

=== FILE: injection.dfy ===
/**
  The injection strategies and the first-match resolution of one property.
  `Setter` writes through `set` + camelize(property), `NamedMethod` through
  a method named lcfirst(camelize(property)) that takes a parameter, and
  `Reflection` writes a declared field directly.
 */
module InjectionStrategies {
  import opened Results
  import opened Objects
  import opened Naming
  import opened TypedCollections

  datatype Strategy = Setter | NamedMethod | Reflection

  /** The strategy list used when none is supplied, in precedence order. */
  const Defaults: Typed<Strategy> := Typed(InjectionStrategyInterface, [Setter, NamedMethod, Reflection])

  /** The setter a property is written through: the format `set%s` applied to the camelized name. */
  function SetterName(property: PropertyName): (r: MethodName)
    ensures |r| >= 3 && r[..3] == "set"
    ensures NoSeparator(r[3..]) && StartsCapitalized(r[3..])
  {
    "set" + Camelize(property)
  }

  /** The method a strategy invokes for a property; `Reflection` invokes none. */
  function MethodFor(s: Strategy, property: PropertyName): MethodName
    requires s != Reflection
  {
    if s == Setter then SetterName(property) else AccessorName(property)
  }

  /** Whether `s` can write `property` into `o`; `value` is part of the interface but never looked at. */
  function Supports(s: Strategy, o: Obj, property: PropertyName, value: Value): (r: bool)
    ensures r && s != Reflection ==> MethodFor(s, property) in o.methods
    ensures r && s == NamedMethod ==> o.methods[AccessorName(property)].parameters > 0
    ensures s == Setter && SetterName(property) in o.methods ==> r
    ensures s == NamedMethod ==>
      (r <==> AccessorName(property) in o.methods && o.methods[AccessorName(property)].parameters > 0)
    ensures s == Reflection ==> (r <==> property in o.fields)
  {
    match s
    case Setter => SetterName(property) in o.methods
    case NamedMethod =>
      var m := AccessorName(property);
      m in o.methods && o.methods[m].parameters > 0
    case Reflection => property in o.fields
  }

  /**
    Writes `value` into `o` with `s`. An unsupported property raises a bare
    `LogicException` before anything is touched; otherwise the strategy's
    method is called with exactly the value, or the field is written.
   */
  function Inject(s: Strategy, o: Obj, property: PropertyName, value: Value): (r: Result<Obj>)
    ensures r.Err? <==> !Supports(s, o, property, value)
    ensures r.Err? ==> r.error == Logic("")
    ensures r.Ok? ==> r.value.id == o.id && r.value.methods == o.methods
    ensures r.Ok? && s != Reflection ==> r.value.calls == o.calls + [Call(MethodFor(s, property), [value])]
    ensures r.Ok? && s != Reflection ==> r.value == Invoke(o, MethodFor(s, property), [value]).0
    ensures r.Ok? && s == Reflection ==>
      && r.value.calls == o.calls
      && r.value.fields.Keys == o.fields.Keys
      && r.value.fields[property] == Field(o.fields[property].visibility, value)
      && forall f :: f in o.fields && f != property ==> r.value.fields[f] == o.fields[f]
  {
    if !Supports(s, o, property, value) then Err(Logic(""))
    else match s
      case Setter => Ok(Invoke(o, SetterName(property), [value]).0)
      case NamedMethod => Ok(Invoke(o, AccessorName(property), [value]).0)
      case Reflection => Ok(WriteField(o, property, value))
  }

  /** The message of the `LogicException` raised when no strategy applies. */
  function CannotInject(property: PropertyName): string {
    "Property \"" + property + "\" cannot be injected"
  }

  /** The index of the first strategy of `ss`, from `from` on, that supports the property. */
  function FirstMatchFrom(ss: seq<Strategy>, o: Obj, property: PropertyName, value: Value, from: nat): (r: Option<nat>)
    requires from <= |ss|
    ensures r.Some? ==> from <= r.value < |ss| && Supports(ss[r.value], o, property, value)
    ensures r.Some? ==> forall j :: from <= j < r.value ==> !Supports(ss[j], o, property, value)
    ensures r.None? <==> forall j :: from <= j < |ss| ==> !Supports(ss[j], o, property, value)
    decreases |ss| - from
  {
    if from == |ss| then None
    else if Supports(ss[from], o, property, value) then Some(from)
    else FirstMatchFrom(ss, o, property, value, from + 1)
  }

  function FirstMatch(ss: seq<Strategy>, o: Obj, property: PropertyName, value: Value): Option<nat> {
    FirstMatchFrom(ss, o, property, value, 0)
  }

  /**
    Injects one property with the first strategy of `ss` that supports it,
    giving the updated object and the strategy used; when none does, raises
    `LogicException` with message `Property "x" cannot be injected`.
   */
  function InjectProperty(ss: seq<Strategy>, o: Obj, property: PropertyName, value: Value): (r: Result<(Obj, Strategy)>)
    ensures r.Err? <==> forall s :: s in ss ==> !Supports(s, o, property, value)
    ensures r.Err? ==> r.error == Logic(CannotInject(property))
    ensures r.Ok? ==>
      exists i :: 0 <= i < |ss| && ss[i] == r.value.1
        && Supports(ss[i], o, property, value)
        && (forall j :: 0 <= j < i ==> !Supports(ss[j], o, property, value))
        && Inject(ss[i], o, property, value) == Ok(r.value.0)
  {
    match FirstMatch(ss, o, property, value)
    case None => Err(Logic(CannotInject(property)))
    case Some(i) =>
      var s := ss[i];
      Ok((Inject(s, o, property, value).value, s))
  }

  /** No strategy's support depends on the value being injected. */
  lemma SupportsIgnoresValue(s: Strategy, o: Obj, property: PropertyName, v: Value, w: Value)
    ensures Supports(s, o, property, v) == Supports(s, o, property, w)
  {
  }

  /**
    Precedence of the default list: a setter wins over a named method with
    parameters, which wins over a declared field; with none of the three the
    property cannot be injected.
   */
  lemma DefaultPrecedence(o: Obj, property: PropertyName, value: Value)
    ensures var r := InjectProperty(Defaults.items, o, property, value);
      && (SetterName(property) in o.methods ==> r.Ok? && r.value.1 == Setter)
      && (SetterName(property) !in o.methods && Supports(NamedMethod, o, property, value) ==>
            r.Ok? && r.value.1 == NamedMethod)
      && (SetterName(property) !in o.methods && !Supports(NamedMethod, o, property, value) ==>
            (r.Ok? <==> property in o.fields) && (r.Ok? ==> r.value.1 == Reflection))
      && (r.Ok? ==> Inject(r.value.1, o, property, value) == Ok(r.value.0))
  {
    var ss := Defaults.items;
    assert ss[0] == Setter && ss[1] == NamedMethod && ss[2] == Reflection;
  }

  /** A setter is used whatever its parameter count: only its name is looked at. */
  lemma SetterIgnoresParameterCount(o: Obj, property: PropertyName, value: Value)
    requires SetterName(property) in o.methods
    ensures Supports(Setter, o, property, value)
    ensures var r := Inject(Setter, o, property, value);
      r.Ok? && r.value.calls == o.calls + [Call(SetterName(property), [value])]
  {
  }

  /** A method named like the property but taking no parameter never receives an injection. */
  lemma ZeroParameterMethodUnsupported(o: Obj, property: PropertyName, value: Value)
    requires AccessorName(property) in o.methods
    requires o.methods[AccessorName(property)].parameters == 0
    ensures !Supports(NamedMethod, o, property, value)
    ensures Inject(NamedMethod, o, property, value) == Err(Logic(""))
  {
  }
}

=== FILE: naming.dfy ===
/**
  The string helpers the strategies use to derive method names from a
  property name: `camelize` and `lcfirst` of Innmind's `StringPrimitive`.
  Camelizing splits the name on underscores and spaces, upper-cases the
  first character of every segment when it is a lower-case ASCII letter
  (any other first character is kept) and joins the segments.
 */
module Naming {

  predicate IsSeparator(c: char) { c == '_' || c == ' ' }

  predicate IsLower(c: char) { 'a' <= c <= 'z' }

  predicate IsUpper(c: char) { 'A' <= c <= 'Z' }

  function ToUpper(c: char): char {
    if IsLower(c) then (c as int - 32) as char else c
  }

  function ToLower(c: char): char {
    if IsUpper(c) then (c as int + 32) as char else c
  }

  /** True when no character of `s` is a segment separator. */
  predicate NoSeparator(s: string) {
    forall i :: 0 <= i < |s| ==> !IsSeparator(s[i])
  }

  /** True when `s` is empty or does not start with a lower-case letter. */
  predicate StartsCapitalized(s: string) {
    |s| > 0 ==> !IsLower(s[0])
  }

  /**
    Camelizes `s`; `capitalize` says whether the next kept character opens
    a segment and must be upper-cased.
   */
  function CamelizeFrom(s: string, capitalize: bool): (r: string)
    ensures |r| <= |s|
    ensures NoSeparator(r)
    ensures capitalize ==> StartsCapitalized(r)
    ensures NoSeparator(s) && s != [] ==> |r| == |s|
    decreases |s|
  {
    if s == [] then []
    else if IsSeparator(s[0]) then CamelizeFrom(s[1..], true)
    else [if capitalize then ToUpper(s[0]) else s[0]] + CamelizeFrom(s[1..], false)
  }

  /** `StringPrimitive::camelize`: upper camel case, e.g. "foo_bar" becomes "FooBar". */
  function Camelize(s: string): (r: string)
    ensures NoSeparator(r) && StartsCapitalized(r)
    ensures |r| <= |s|
  {
    CamelizeFrom(s, true)
  }

  /** `StringPrimitive::lcfirst`: lower-cases the first character only. */
  function Lcfirst(s: string): string {
    if s == [] then [] else [ToLower(s[0])] + s[1..]
  }

  /** The lower camel form of a property name, e.g. "foo_bar" becomes "fooBar". */
  function AccessorName(property: string): string {
    Lcfirst(Camelize(property))
  }

  /** Inside a segment, camelizing leaves a separator-free string as it is. */
  lemma {:induction false} CamelizeFromPlain(s: string)
    requires NoSeparator(s)
    ensures CamelizeFrom(s, false) == s
    decreases |s|
  {
    if s != [] {
      CamelizeFromPlain(s[1..]);
    }
  }

  /**
    A property name already in lower camel form (no separator, not starting
    with an upper-case letter) is its own accessor name: property "d" is
    served by a method `d`.
   */
  lemma AccessorNameOfLowerCamel(property: string)
    requires property != [] && NoSeparator(property) && !IsUpper(property[0])
    ensures AccessorName(property) == property
  {
    CamelizeFromPlain(property[1..]);
    assert property == [property[0]] + property[1..];
  }
}

=== FILE: objects.dfy ===
/**
  The abstract object model that stands in for PHP reflection. An object is
  an identity, its declared fields (with visibility and current value), its
  method table (name to parameter count and behaviour) and the log of the
  method calls made on it.
 */
module Objects {

  type PropertyName = string
  type MethodName = string

  datatype Visibility = Public | Protected | Private

  /** A PHP value, as far as the library looks at it. */
  datatype Value =
    | Null
    | Int(i: int)
    | Str(s: string)
    | Array(items: seq<Value>)
    | Object(obj: Obj)

  datatype Field = Field(visibility: Visibility, value: Value)

  /** What calling a method does to the object and what it returns. */
  datatype Body =
    /** stores its first argument (null when called without one) in a field */
    | Assign(field: string)
    /** returns the current value of a field (null when the field is absent) */
    | Returns(field: string)
    /** returns a constant */
    | Constant(result: Value)
    /** does nothing and returns null */
    | Nothing

  datatype Method = Method(parameters: nat, body: Body)

  datatype Call = Call(name: MethodName, arguments: seq<Value>)

  /** An object; `id` is its identity, which no operation of the library changes. */
  datatype Obj = Obj(
    id: nat,
    fields: map<PropertyName, Field>,
    methods: map<MethodName, Method>,
    calls: seq<Call>)

  /** Writes `v` into field `f`, keeping a declared field's visibility; an undeclared one is created public. */
  function WriteField(o: Obj, f: PropertyName, v: Value): (r: Obj)
    ensures r.id == o.id && r.methods == o.methods && r.calls == o.calls
    ensures r.fields.Keys == o.fields.Keys + {f}
    ensures r.fields[f].value == v
    ensures f in o.fields ==> r.fields[f].visibility == o.fields[f].visibility
    ensures forall g :: g in o.fields && g != f ==> r.fields[g] == o.fields[g]
  {
    var visibility := if f in o.fields then o.fields[f].visibility else Public;
    o.(fields := o.fields[f := Field(visibility, v)])
  }

  /** Calls method `m` of `o`; the call is logged, and the object after the call and the returned value are given. */
  function Invoke(o: Obj, m: MethodName, arguments: seq<Value>): (r: (Obj, Value))
    requires m in o.methods
    ensures r.0.id == o.id && r.0.methods == o.methods
    ensures r.0.calls == o.calls + [Call(m, arguments)]
    ensures o.methods[m].body.Assign? || r.0.fields == o.fields
  {
    var logged := o.(calls := o.calls + [Call(m, arguments)]);
    match o.methods[m].body
    case Assign(f) =>
      (WriteField(logged, f, if arguments == [] then Null else arguments[0]), Null)
    case Returns(f) =>
      (logged, if f in o.fields then o.fields[f].value else Null)
    case Constant(v) => (logged, v)
    case Nothing => (logged, Null)
  }
}

=== FILE: properties.dfy ===
/**
  The pending properties: Innmind's `Collection` over a PHP array with
  string keys, i.e. an ordered map. `set` overwrites a present key in place
  and appends a new one, `merge` sets every entry of the second collection
  in its order, and `filter` keeps the surviving entries in their order.
 */
module Properties {
  import opened Objects

  type Entry = (PropertyName, Value)

  /** The keys in iteration order. */
  function Keys(ps: seq<Entry>): (ks: seq<PropertyName>)
    ensures |ks| == |ps|
    decreases |ps|
  {
    if ps == [] then [] else [ps[0].0] + Keys(ps[1..])
  }

  predicate DistinctKeys(ps: seq<Entry>)
    decreases |ps|
  {
    ps == [] || (ps[0].0 !in Keys(ps[1..]) && DistinctKeys(ps[1..]))
  }

  /** An ordered map: a list of entries with pairwise distinct keys. */
  type Props = ps: seq<Entry> | DistinctKeys(ps) witness []

  /** Keys, distinctness and the denoted map of an entry followed by more entries. */
  lemma Cons(e: Entry, rest: seq<Entry>)
    ensures Keys([e] + rest) == [e.0] + Keys(rest)
    ensures DistinctKeys([e] + rest) <==> e.0 !in Keys(rest) && DistinctKeys(rest)
    ensures ToMap([e] + rest) == ToMap(rest)[e.0 := e.1]
  {
    assert ([e] + rest)[0] == e;
    assert ([e] + rest)[1..] == rest;
  }

  /** The key at each position is the key of the entry there. */
  lemma {:induction false} KeysAt(ps: seq<Entry>)
    ensures forall i :: 0 <= i < |ps| ==> Keys(ps)[i] == ps[i].0
    decreases |ps|
  {
    if ps != [] {
      KeysAt(ps[1..]);
    }
  }

  /** Distinct keys, stated by position. */
  lemma {:induction false} DistinctKeysAt(ps: seq<Entry>)
    requires DistinctKeys(ps)
    ensures forall i, j :: 0 <= i < j < |ps| ==> ps[i].0 != ps[j].0
    decreases |ps|
  {
    if ps != [] {
      DistinctKeysAt(ps[1..]);
      KeysAt(ps[1..]);
      assert forall j :: 0 < j < |ps| ==> ps[j] == ps[1..][j - 1];
    }
  }

  /** The map an ordered map denotes, i.e. `toPrimitive` without the order. */
  function ToMap(ps: seq<Entry>): (m: map<PropertyName, Value>)
    ensures forall k :: k in m <==> k in Keys(ps)
    decreases |ps|
  {
    if ps == [] then map[] else ToMap(ps[1..])[ps[0].0 := ps[0].1]
  }

  /** `Collection::set`: bind `k` to `v`, in place when `k` is present, at the end otherwise. */
  function Set(ps: Props, k: PropertyName, v: Value): (r: Props)
    ensures k in Keys(ps) ==> Keys(r) == Keys(ps)
    ensures k !in Keys(ps) ==> Keys(r) == Keys(ps) + [k]
    decreases |ps|
  {
    if ps == [] then
      Cons((k, v), []);
      [(k, v)]
    else if ps[0].0 == k then
      Cons((k, v), ps[1..]);
      [(k, v)] + ps[1..]
    else
      var rest := Set(ps[1..], k, v);
      Cons(ps[0], rest);
      [ps[0]] + rest
  }

  /** Setting denotes a map update. */
  lemma {:induction false} SetDenotes(ps: Props, k: PropertyName, v: Value)
    ensures ToMap(Set(ps, k, v)) == ToMap(ps)[k := v]
    decreases |ps|
  {
    if ps == [] {
      Cons((k, v), []);
    } else if ps[0].0 == k {
      Cons((k, v), ps[1..]);
      assert ToMap(ps) == ToMap(ps[1..])[k := ps[0].1];
    } else {
      SetDenotes(ps[1..], k, v);
      var rest := Set(ps[1..], k, v);
      assert Set(ps, k, v) == [ps[0]] + rest;
      Cons(ps[0], rest);
      assert ToMap(ps) == ToMap(ps[1..])[ps[0].0 := ps[0].1];
      UpdatesCommute(ToMap(ps[1..]), ps[0].0, ps[0].1, k, v);
    }
  }

  lemma UpdatesCommute(m: map<PropertyName, Value>, j: PropertyName, w: Value, k: PropertyName, v: Value)
    requires j != k
    ensures m[j := w][k := v] == m[k := v][j := w]
  {
  }

  /** `Collection::merge`: the entries of `qs`, in their order, set on `ps`; keys of `qs` win. */
  function Merge(ps: Props, qs: Props): (r: Props)
    ensures |Keys(ps)| <= |Keys(r)| && Keys(r)[..|ps|] == Keys(ps)
    decreases |qs|
  {
    if qs == [] then ps
    else
      var set1 := Set(ps, qs[0].0, qs[0].1);
      var r := Merge(set1, qs[1..]);
      assert Keys(r)[..|ps|] == Keys(set1)[..|ps|];
      r
  }

  /** `Collection::filter` on keys: drop every entry whose key is in `excluded`. */
  function Filter(ps: Props, excluded: set<PropertyName>): (r: Props)
    ensures forall k :: k in Keys(r) <==> k in Keys(ps) && k !in excluded
    ensures |r| <= |ps|
    ensures Keys(r) == KeysWithout(Keys(ps), excluded)
    decreases |ps|
  {
    if ps == [] then []
    else
      var rest := Filter(ps[1..], excluded);
      assert Keys(ps) == [ps[0].0] + Keys(ps[1..]);
      if ps[0].0 in excluded then rest
      else
        Cons(ps[0], rest);
        [ps[0]] + rest
  }

  /** The keys of `added` not already in `ks`, in their order. */
  function NewKeys(ks: seq<PropertyName>, added: seq<PropertyName>): (r: seq<PropertyName>)
    ensures forall k :: k in r <==> k in added && k !in ks
    decreases |added|
  {
    if added == [] then []
    else if added[0] in ks then NewKeys(ks, added[1..])
    else [added[0]] + NewKeys(ks, added[1..])
  }

  /** A key that does not occur in `added` makes no difference to its new keys. */
  lemma {:induction false} NewKeysSkip(ks: seq<PropertyName>, k: PropertyName, added: seq<PropertyName>)
    requires k !in added
    ensures NewKeys(ks + [k], added) == NewKeys(ks, added)
    decreases |added|
  {
    if added != [] {
      NewKeysSkip(ks, k, added[1..]);
    }
  }

  /** Merging keeps the receiver's keys first and appends the merged collection's new keys in its order. */
  lemma {:induction false} MergeKeys(ps: Props, qs: Props)
    ensures Keys(Merge(ps, qs)) == Keys(ps) + NewKeys(Keys(ps), Keys(qs))
    decreases |qs|
  {
    if qs != [] {
      var set1 := Set(ps, qs[0].0, qs[0].1);
      MergeKeys(set1, qs[1..]);
      assert Merge(ps, qs) == Merge(set1, qs[1..]);
      NewKeysAfterSet(ps, qs);
    }
  }

  /** Setting the first merged entry moves it from the new keys to the receiver's keys when it was new. */
  lemma NewKeysAfterSet(ps: Props, qs: Props)
    requires qs != []
    ensures var set1 := Set(ps, qs[0].0, qs[0].1);
      Keys(set1) + NewKeys(Keys(set1), Keys(qs[1..])) == Keys(ps) + NewKeys(Keys(ps), Keys(qs))
  {
    var k, v := qs[0].0, qs[0].1;
    var rest := Keys(qs[1..]);
    var ks := Keys(ps);
    assert Keys(qs) == [k] + rest;
    assert k !in rest;
    if k !in ks {
      assert NewKeys(ks, Keys(qs)) == [k] + NewKeys(ks, rest);
      NewKeysSkip(ks, k, rest);
      assert (ks + [k]) + NewKeys(ks, rest) == ks + ([k] + NewKeys(ks, rest));
    }
  }

  /** The keys of `ks` that are not in `excluded`, in their order. */
  function KeysWithout(ks: seq<PropertyName>, excluded: set<PropertyName>): (r: seq<PropertyName>)
    ensures forall k :: k in r <==> k in ks && k !in excluded
    decreases |ks|
  {
    if ks == [] then []
    else if ks[0] in excluded then KeysWithout(ks[1..], excluded)
    else [ks[0]] + KeysWithout(ks[1..], excluded)
  }

  /** Excluding every key leaves none. */
  lemma {:induction false} KeysWithoutAll(ks: seq<PropertyName>, excluded: set<PropertyName>)
    requires forall k :: k in ks ==> k in excluded
    ensures KeysWithout(ks, excluded) == []
    decreases |ks|
  {
    if ks != [] {
      assert ks[0] in ks;
      KeysWithoutAll(ks[1..], excluded);
    }
  }

  /** Merging denotes map union in which the keys of the merged collection win. */
  lemma {:induction false} MergeDenotes(ps: Props, qs: Props)
    ensures ToMap(Merge(ps, qs)) == ToMap(ps) + ToMap(qs)
    decreases |qs|
  {
    if qs != [] {
      var k, v := qs[0].0, qs[0].1;
      MergeDenotes(Set(ps, k, v), qs[1..]);
      SetDenotes(ps, k, v);
      assert Merge(ps, qs) == Merge(Set(ps, k, v), qs[1..]);
      assert ToMap(qs) == ToMap(qs[1..])[k := v];
      UpdateThenUnion(ToMap(ps), ToMap(qs[1..]), k, v);
    }
  }

  lemma UpdateThenUnion(a: map<PropertyName, Value>, b: map<PropertyName, Value>, k: PropertyName, v: Value)
    requires k !in b
    ensures a[k := v] + b == a + b[k := v]
  {
  }

  /** Filtering denotes removing the excluded keys from the map. */
  lemma {:induction false} FilterDenotes(ps: Props, excluded: set<PropertyName>)
    ensures ToMap(Filter(ps, excluded)) == ToMap(ps) - excluded
    decreases |ps|
  {
    if ps != [] {
      FilterDenotes(ps[1..], excluded);
      var rest := Filter(ps[1..], excluded);
      assert ToMap(ps) == ToMap(ps[1..])[ps[0].0 := ps[0].1];
      if ps[0].0 !in excluded {
        Cons(ps[0], rest);
      }
      UpdateThenRemove(ToMap(ps[1..]), ps[0].0, ps[0].1, excluded);
    }
  }

  lemma UpdateThenRemove(m: map<PropertyName, Value>, k: PropertyName, v: Value, excluded: set<PropertyName>)
    ensures k in excluded ==> m[k := v] - excluded == m - excluded
    ensures k !in excluded ==> m[k := v] - excluded == (m - excluded)[k := v]
  {
  }
}

=== FILE: reflection_class.dfy ===
/**
  `ReflectionClass`: an immutable builder around a class name. Building
  asks the instanciator for a new instance given every pending property,
  drops the properties whose names are constructor parameters, and lets a
  `ReflectionObject` inject the rest into the new instance.
 */
module ReflectionClass {
  import opened Results
  import opened Objects
  import opened Properties
  import opened TypedCollections
  import Inj = InjectionStrategies
  import RO = ReflectionObject

  type ClassName = string

  /** What an `InstanciatorInterface` does: build an instance, and name the constructor parameters. */
  datatype InstanciatorImpl = InstanciatorImpl(
    build: (ClassName, Props) -> Obj,
    parameters: ClassName -> set<PropertyName>)

  /** The default `ReflectionInstanciator`, or one the caller supplies. */
  datatype Instanciator = ReflectionInstanciator | Custom(impl: InstanciatorImpl)

  /** The behaviour of `i`, where `reflection` is the behaviour of the host's `ReflectionInstanciator`. */
  function Behaviour(i: Instanciator, reflection: InstanciatorImpl): InstanciatorImpl {
    match i
    case ReflectionInstanciator => reflection
    case Custom(impl) => impl
  }

  datatype ClassBuilder = ClassBuilder(
    className: ClassName,
    properties: Props,
    injectionStrategies: Typed<Inj.Strategy>,
    instanciator: Instanciator)

  /** The injection strategy collection is typed with `InjectionStrategyInterface`. */
  predicate Valid(b: ClassBuilder) {
    b.injectionStrategies.elementType == InjectionStrategyInterface
  }

  /**
    The constructor: a supplied strategy collection typed with another
    interface raises `InvalidArgumentException`; omitted arguments default
    to no properties, the default strategies and `ReflectionInstanciator`.
   */
  function New(
    className: ClassName,
    properties: Option<Props>,
    strategies: Option<Typed<Inj.Strategy>>,
    instanciator: Option<Instanciator>): (r: Result<ClassBuilder>)
    ensures r.Err? <==> strategies.Some? && strategies.value.elementType != InjectionStrategyInterface
    ensures r.Err? ==> r.error == InvalidArgument
    ensures r.Ok? ==> Valid(r.value) && r.value.className == className
    ensures r.Ok? ==> r.value.properties == (if properties.None? then [] else properties.value)
    ensures r.Ok? ==> r.value.injectionStrategies == (if strategies.None? then Inj.Defaults else strategies.value)
    ensures r.Ok? ==> r.value.instanciator == (if instanciator.None? then ReflectionInstanciator else instanciator.value)
  {
    var strategies := if strategies.None? then Inj.Defaults else strategies.value;
    if strategies.elementType != InjectionStrategyInterface then Err(InvalidArgument)
    else Ok(ClassBuilder(
      className,
      if properties.None? then [] else properties.value,
      strategies,
      if instanciator.None? then ReflectionInstanciator else instanciator.value))
  }

  /** A new builder with `property` set to `value`, overwriting; nothing else changes. */
  function WithProperty(b: ClassBuilder, property: PropertyName, value: Value): (r: ClassBuilder)
    ensures ToMap(r.properties) == ToMap(b.properties)[property := value]
    ensures property in Keys(b.properties) ==> Keys(r.properties) == Keys(b.properties)
    ensures property !in Keys(b.properties) ==> Keys(r.properties) == Keys(b.properties) + [property]
    ensures r.className == b.className && r.injectionStrategies == b.injectionStrategies
    ensures r.instanciator == b.instanciator
    ensures Valid(b) ==> Valid(r)
  {
    SetDenotes(b.properties, property, value);
    b.(properties := Set(b.properties, property, value))
  }

  /** A new builder whose properties are the old ones merged with `properties`, whose keys win. */
  function WithProperties(b: ClassBuilder, properties: Props): (r: ClassBuilder)
    ensures ToMap(r.properties) == ToMap(b.properties) + ToMap(properties)
    ensures Keys(r.properties) == Keys(b.properties) + NewKeys(Keys(b.properties), Keys(properties))
    ensures r.className == b.className && r.injectionStrategies == b.injectionStrategies
    ensures r.instanciator == b.instanciator
    ensures Valid(b) ==> Valid(r)
  {
    MergeDenotes(b.properties, properties);
    MergeKeys(b.properties, properties);
    b.(properties := Merge(b.properties, properties))
  }

  /** The instance the instanciator builds from the full, unfiltered pending properties. */
  function Instance(b: ClassBuilder, reflection: InstanciatorImpl): Obj {
    Behaviour(b.instanciator, reflection).build(b.className, b.properties)
  }

  /** The constructor parameter names of the class, as the instanciator reports them. */
  function ConstructorParameters(b: ClassBuilder, reflection: InstanciatorImpl): set<PropertyName> {
    Behaviour(b.instanciator, reflection).parameters(b.className)
  }

  /** The properties left for the strategies: every pending one that is not a constructor parameter. */
  function Remaining(b: ClassBuilder, reflection: InstanciatorImpl): (r: Props)
    ensures ToMap(r) == ToMap(b.properties) - ConstructorParameters(b, reflection)
    ensures forall k :: k in Keys(r) <==> k in Keys(b.properties) && k !in ConstructorParameters(b, reflection)
    ensures Keys(r) == KeysWithout(Keys(b.properties), ConstructorParameters(b, reflection))
  {
    FilterDenotes(b.properties, ConstructorParameters(b, reflection));
    Filter(b.properties, ConstructorParameters(b, reflection))
  }

  /**
    `buildObject`: instanciate with all pending properties, then inject,
    through a `ReflectionObject` over the new instance, only the properties
    that are not constructor parameters.
   */
  function BuildObject(b: ClassBuilder, reflection: InstanciatorImpl): (r: RO.Outcome)
    ensures r.target.id == Behaviour(b.instanciator, reflection).build(b.className, b.properties).id
    ensures forall i :: 0 <= i < |r.injected| ==>
      r.injected[i].property in Keys(b.properties) && r.injected[i].property !in ConstructorParameters(b, reflection)
    ensures Valid(b) && r.error.None? ==> RO.InjectedNames(r.injected) == Keys(Remaining(b, reflection))
    ensures Valid(b) && r.error.Some? ==>
      var remaining := Remaining(b, reflection);
      && |r.injected| < |remaining|
      && r.error.value == Logic(Inj.CannotInject(remaining[|r.injected|].0))
      && forall s :: s in b.injectionStrategies.items ==>
           !Inj.Supports(s, r.target, remaining[|r.injected|].0, remaining[|r.injected|].1)
    ensures Valid(b) ==> exists t ::
      RO.IsTrace(b.injectionStrategies.items, Remaining(b, reflection), r.injected, t)
        && t[0] == Instance(b, reflection) && t[|t| - 1] == r.target
  {
    var instance := Instance(b, reflection);
    var remaining := Remaining(b, reflection);
    match RO.New(Object(instance), Some(remaining), Some(b.injectionStrategies), None)
    case Err(e) => RO.Outcome(instance, [], Some(e))
    case Ok(refl) =>
      var r := RO.BuildObject(refl);
      r
  }

  /**
    When every pending property is a constructor parameter, no strategy is
    consulted and the freshly built instance is returned untouched.
   */
  lemma AllConstructorParameters(b: ClassBuilder, reflection: InstanciatorImpl)
    requires Valid(b)
    requires forall k :: k in Keys(b.properties) ==> k in ConstructorParameters(b, reflection)
    ensures BuildObject(b, reflection) == RO.Outcome(Instance(b, reflection), [], None)
  {
    var remaining := Remaining(b, reflection);
    KeysWithoutAll(Keys(b.properties), ConstructorParameters(b, reflection));
    assert Keys(remaining) == [];
  }
}

=== FILE: reflection_object.dfy ===
/**
  `ReflectionObject`: an immutable builder around an existing object. It
  stages pending properties, and `buildObject` pushes each of them, in
  order, through the first injection strategy that supports it. Because
  PHP objects are shared references, the object after the build is part of
  the outcome even when the build fails: properties injected before the
  failing one stay injected.
 */
module ReflectionObject {
  import opened Results
  import opened Objects
  import opened Properties
  import opened TypedCollections
  import Inj = InjectionStrategies
  import Ext = ExtractionStrategies

  datatype ObjectBuilder = ObjectBuilder(
    target: Obj,
    properties: Props,
    injectionStrategies: Typed<Inj.Strategy>,
    extractionStrategies: Typed<Ext.Strategy>)

  /** Both strategy collections are typed with the interface their elements must implement. */
  predicate Valid(b: ObjectBuilder) {
    && b.injectionStrategies.elementType == InjectionStrategyInterface
    && b.extractionStrategies.elementType == ExtractionStrategyInterface
  }

  /**
    The constructor: the target must be an object and supplied strategy
    collections must be typed with the right interface
    (`InvalidArgumentException` otherwise); omitted arguments default to no
    properties and the default strategy lists.
   */
  function New(
    target: Value,
    properties: Option<Props>,
    injection: Option<Typed<Inj.Strategy>>,
    extraction: Option<Typed<Ext.Strategy>>): (r: Result<ObjectBuilder>)
    ensures r.Err? <==>
      || !target.Object?
      || (injection.Some? && injection.value.elementType != InjectionStrategyInterface)
      || (extraction.Some? && extraction.value.elementType != ExtractionStrategyInterface)
    ensures r.Err? ==> r.error == InvalidArgument
    ensures r.Ok? ==> Valid(r.value) && r.value.target == target.obj
    ensures r.Ok? ==> r.value.properties == (if properties.None? then [] else properties.value)
    ensures r.Ok? ==> r.value.injectionStrategies == (if injection.None? then Inj.Defaults else injection.value)
    ensures r.Ok? ==> r.value.extractionStrategies == (if extraction.None? then Ext.Defaults else extraction.value)
  {
    var injection := if injection.None? then Inj.Defaults else injection.value;
    var extraction := if extraction.None? then Ext.Defaults else extraction.value;
    if !target.Object? then Err(InvalidArgument)
    else if injection.elementType != InjectionStrategyInterface then Err(InvalidArgument)
    else if extraction.elementType != ExtractionStrategyInterface then Err(InvalidArgument)
    else Ok(ObjectBuilder(target.obj, if properties.None? then [] else properties.value, injection, extraction))
  }

  /** A new builder with `property` set to `value`; the receiver is a value and stays as it was. */
  function WithProperty(b: ObjectBuilder, property: PropertyName, value: Value): (r: ObjectBuilder)
    ensures ToMap(r.properties) == ToMap(b.properties)[property := value]
    ensures property in Keys(b.properties) ==> Keys(r.properties) == Keys(b.properties)
    ensures property !in Keys(b.properties) ==> Keys(r.properties) == Keys(b.properties) + [property]
    ensures r.target == b.target
    ensures r.injectionStrategies == b.injectionStrategies && r.extractionStrategies == b.extractionStrategies
  {
    SetDenotes(b.properties, property, value);
    b.(properties := Set(b.properties, property, value))
  }

  /** A new builder whose properties are the old ones merged with `properties`, whose keys win. */
  function WithProperties(b: ObjectBuilder, properties: Props): (r: ObjectBuilder)
    ensures ToMap(r.properties) == ToMap(b.properties) + ToMap(properties)
    ensures Keys(r.properties) == Keys(b.properties) + NewKeys(Keys(b.properties), Keys(properties))
    ensures r.target == b.target
    ensures r.injectionStrategies == b.injectionStrategies && r.extractionStrategies == b.extractionStrategies
  {
    MergeDenotes(b.properties, properties);
    MergeKeys(b.properties, properties);
    b.(properties := Merge(b.properties, properties))
  }

  /** One successful injection: which property went through which strategy. */
  datatype Injection = Injection(property: PropertyName, strategy: Inj.Strategy)

  /** The shared object after a build, the injections made, and the exception that stopped it if any. */
  datatype Outcome = Outcome(target: Obj, injected: seq<Injection>, error: Option<Error>)

  function InjectedNames(injected: seq<Injection>): (ns: seq<PropertyName>)
    ensures |ns| == |injected|
    ensures forall i :: 0 <= i < |injected| ==> ns[i] == injected[i].property
  {
    seq(|injected|, i requires 0 <= i < |injected| => injected[i].property)
  }

  /**
    Injects `ps` in order into `o`, each with the first strategy of `ss`
    that supports it at that point; stops at the first property no strategy
    supports.
   */
  function InjectAll(ss: seq<Inj.Strategy>, o: Obj, ps: Props): (r: Outcome)
    ensures r.target.id == o.id && r.target.methods == o.methods
    ensures |r.injected| <= |ps|
    ensures forall i :: 0 <= i < |r.injected| ==> r.injected[i].property == ps[i].0 && r.injected[i].strategy in ss
    ensures r.error.None? <==> |r.injected| == |ps|
    decreases |ps|
  {
    if ps == [] then Outcome(o, [], None)
    else
      var (property, value) := ps[0];
      match Inj.InjectProperty(ss, o, property, value)
      case Err(e) => Outcome(o, [], Some(e))
      case Ok((o', s)) =>
        var rest := InjectAll(ss, o', ps[1..]);
        Outcome(rest.target, [Injection(property, s)] + rest.injected, rest.error)
  }

  /**
    `t` is the sequence of states a build went through: `t[i + 1]` is what
    the first strategy of `ss` supporting pending property `i` made of
    `t[i]`, and `injected` records those strategies.
   */
  predicate IsTrace(ss: seq<Inj.Strategy>, ps: Props, injected: seq<Injection>, t: seq<Obj>) {
    && |injected| <= |ps|
    && |t| == |injected| + 1
    && forall i :: 0 <= i < |injected| ==>
         && injected[i].property == ps[i].0
         && Inj.InjectProperty(ss, t[i], ps[i].0, ps[i].1) == Ok((t[i + 1], injected[i].strategy))
  }

  /**
    A build is a chain of first-match injections: each pending property, in
    order, goes through the first strategy supporting it on the object as
    the earlier injections left it, and the outcome's object is the last
    state of that chain.
   */
  lemma InjectAllTrace(ss: seq<Inj.Strategy>, o: Obj, ps: Props)
    ensures var r := InjectAll(ss, o, ps);
      exists t :: IsTrace(ss, ps, r.injected, t) && t[0] == o && t[|t| - 1] == r.target
  {
    StatesAreTrace(ss, o, ps);
  }

  /** The objects a build passes through, starting with `o`. */
  function States(ss: seq<Inj.Strategy>, o: Obj, ps: Props): (t: seq<Obj>)
    ensures |t| >= 1
    decreases |ps|
  {
    if ps == [] then [o]
    else match Inj.InjectProperty(ss, o, ps[0].0, ps[0].1)
      case Err(_) => [o]
      case Ok((o', _)) => [o] + States(ss, o', ps[1..])
  }

  lemma {:induction false} StatesAreTrace(ss: seq<Inj.Strategy>, o: Obj, ps: Props)
    ensures var r := InjectAll(ss, o, ps);
      var t := States(ss, o, ps);
      IsTrace(ss, ps, r.injected, t) && t[0] == o && t[|t| - 1] == r.target
    decreases |ps|
  {
    if ps != [] && Inj.InjectProperty(ss, o, ps[0].0, ps[0].1).Ok? {
      var (o', s) := Inj.InjectProperty(ss, o, ps[0].0, ps[0].1).value;
      StatesAreTrace(ss, o', ps[1..]);
      var rest := InjectAll(ss, o', ps[1..]);
      var t' := States(ss, o', ps[1..]);
      TraceCons(ss, o, ps, s, rest.injected, t');
      InjectAllStep(ss, o, ps, o', s);
      assert States(ss, o, ps) == [o] + t';
    }
  }

  /** A trace of the later properties, preceded by one injection of the first, is a trace of all. */
  lemma TraceCons(ss: seq<Inj.Strategy>, o: Obj, ps: Props, s: Inj.Strategy, injected: seq<Injection>, t: seq<Obj>)
    requires ps != [] && IsTrace(ss, ps[1..], injected, t)
    requires Inj.InjectProperty(ss, o, ps[0].0, ps[0].1) == Ok((t[0], s))
    ensures IsTrace(ss, ps, [Injection(ps[0].0, s)] + injected, [o] + t)
  {
    var injected', t' := [Injection(ps[0].0, s)] + injected, [o] + t;
    forall i | 0 <= i < |injected'|
      ensures injected'[i].property == ps[i].0
      ensures Inj.InjectProperty(ss, t'[i], ps[i].0, ps[i].1) == Ok((t'[i + 1], injected'[i].strategy))
    {
      if i > 0 {
        assert injected'[i] == injected[i - 1];
        assert ps[i] == ps[1..][i - 1];
        assert t'[i] == t[i - 1] && t'[i + 1] == t[i];
      }
    }
  }

  /** One step of `InjectAll`: the first property goes through the strategy that takes it, then the rest follow. */
  lemma InjectAllStep(ss: seq<Inj.Strategy>, o: Obj, ps: Props, next: Obj, s: Inj.Strategy)
    requires ps != []
    requires Inj.InjectProperty(ss, o, ps[0].0, ps[0].1) == Ok((next, s))
    ensures var rest := InjectAll(ss, next, ps[1..]);
      InjectAll(ss, o, ps) == Outcome(rest.target, [Injection(ps[0].0, s)] + rest.injected, rest.error)
  {
  }

  /** A build whose first property no strategy supports stops at once, leaving the object untouched. */
  lemma InjectAllStop(ss: seq<Inj.Strategy>, o: Obj, ps: Props, e: Error)
    requires ps != []
    requires Inj.InjectProperty(ss, o, ps[0].0, ps[0].1) == Err(e)
    ensures InjectAll(ss, o, ps) == Outcome(o, [], Some(e))
  {
  }

  /**
    A build that stops does so at the first property not injected, with the
    message naming it, and because no strategy supports it on the object as
    the earlier injections left it.
   */
  lemma {:induction false} InjectAllFailure(ss: seq<Inj.Strategy>, o: Obj, ps: Props)
    ensures var r := InjectAll(ss, o, ps);
      r.error.Some? ==>
        && r.error.value == Logic(Inj.CannotInject(ps[|r.injected|].0))
        && forall s :: s in ss ==> !Inj.Supports(s, r.target, ps[|r.injected|].0, ps[|r.injected|].1)
    decreases |ps|
  {
    if ps != [] {
      var (property, value) := ps[0];
      match Inj.InjectProperty(ss, o, property, value)
      case Err(e) =>
      case Ok((o', s)) =>
        InjectAllFailure(ss, o', ps[1..]);
    }
  }

  /**
    `buildObject`: injects every pending property and gives back the very
    object the builder wraps; with nothing pending the object is untouched.
   */
  function BuildObject(b: ObjectBuilder): (r: Outcome)
    ensures r.target.id == b.target.id
    ensures b.properties == [] ==> r == Outcome(b.target, [], None)
    ensures forall i :: 0 <= i < |r.injected| ==> r.injected[i].property in Keys(b.properties)
    ensures r.error.None? ==> InjectedNames(r.injected) == Keys(b.properties)
    ensures r.error.Some? ==>
      exists p :: p in Keys(b.properties) && p !in InjectedNames(r.injected)
        && r.error.value == Logic(Inj.CannotInject(p))
    ensures r.error.Some? ==>
      && |r.injected| < |b.properties|
      && r.error.value == Logic(Inj.CannotInject(b.properties[|r.injected|].0))
      && forall s :: s in b.injectionStrategies.items ==>
           !Inj.Supports(s, r.target, b.properties[|r.injected|].0, b.properties[|r.injected|].1)
    ensures exists t ::
      IsTrace(b.injectionStrategies.items, b.properties, r.injected, t) && t[0] == b.target && t[|t| - 1] == r.target
  {
    var r := InjectAll(b.injectionStrategies.items, b.target, b.properties);
    InjectAllFailure(b.injectionStrategies.items, b.target, b.properties);
    InjectAllTrace(b.injectionStrategies.items, b.target, b.properties);
    FailingPropertyPending(b.properties, r.injected);
    r
  }

  /** The property a build stopped at is pending and was not injected before. */
  lemma FailingPropertyPending(ps: Props, injected: seq<Injection>)
    requires |injected| <= |ps|
    requires forall i :: 0 <= i < |injected| ==> injected[i].property == ps[i].0
    ensures forall i :: 0 <= i < |injected| ==> injected[i].property in Keys(ps)
    ensures |injected| == |ps| ==> InjectedNames(injected) == Keys(ps)
    ensures |injected| < |ps| ==> ps[|injected|].0 in Keys(ps) && ps[|injected|].0 !in InjectedNames(injected)
  {
    KeysAt(ps);
    DistinctKeysAt(ps);
  }

  /**
    `extract`: the requested names mapped to their values in requested
    order, read with the builder's extraction strategies; the pending
    properties play no part.
   */
  function Extract(b: ObjectBuilder, names: seq<PropertyName>): (r: Result<Props>)
    ensures r.Err? <==> exists i :: 0 <= i < |names| && Ext.ExtractProperty(b.extractionStrategies.items, b.target, names[i]).Err?
    ensures r.Err? ==>
      exists i :: 0 <= i < |names| && Ext.ExtractProperty(b.extractionStrategies.items, b.target, names[i]).Err?
        && (forall j :: 0 <= j < i ==> Ext.ExtractProperty(b.extractionStrategies.items, b.target, names[j]).Ok?)
        && r.error == Logic(Ext.CannotExtract(names[i]))
    ensures r.Ok? ==> forall i :: 0 <= i < |names| ==>
      names[i] in ToMap(r.value)
        && Ext.ExtractProperty(b.extractionStrategies.items, b.target, names[i]) == Ok(ToMap(r.value)[names[i]])
    ensures r.Ok? ==> forall k :: k in Keys(r.value) ==> k in names
    ensures r.Ok? && Ext.NoDuplicates(names) ==> Keys(r.value) == names
  {
    Ext.ExtractAll(b.extractionStrategies.items, b.target, names)
  }
}

=== FILE: results.dfy ===
/** Failure-carrying values and the two exception kinds of the library. */
module Results {

  /** The exceptions the library raises, as values. */
  datatype Error =
    /** `Innmind\Reflection\Exception\InvalidArgumentException`: configuration misuse. */
    | InvalidArgument
    /** `Innmind\Reflection\Exception\LogicException`, with its message ("" when raised bare). */
    | Logic(message: string)

  datatype Option<+T> = None | Some(value: T)

  /** Either a value or the exception that a PHP call would have thrown. */
  datatype Result<+T> = Ok(value: T) | Err(error: Error)
}

=== FILE: round_trip.dfy ===
/**
  Injection followed by extraction with the default strategy lists gives
  back the injected value, when the accessors the strategies pick are true
  inverses: a direct field, or a setter and getter over the same field.
 */
module RoundTrip {
  import opened Results
  import opened Objects
  import opened Naming
  import Inj = InjectionStrategies
  import Ext = ExtractionStrategies

  /** A declared field with no setter, no getter and no same-named method reads back what was injected. */
  lemma FieldRoundTrip(o: Obj, property: PropertyName, v: Value)
    requires property in o.fields
    requires Inj.SetterName(property) !in o.methods
    requires Ext.GetterName(property) !in o.methods
    requires AccessorName(property) !in o.methods
    ensures var r := Inj.InjectProperty(Inj.Defaults.items, o, property, v);
      && r.Ok? && r.value.1 == Inj.Reflection
      && Ext.ExtractProperty(Ext.Defaults.items, r.value.0, property) == Ok(v)
  {
    Inj.DefaultPrecedence(o, property, v);
    var o' := Inj.InjectProperty(Inj.Defaults.items, o, property, v).value.0;
    assert o' == Inj.Inject(Inj.Reflection, o, property, v).value;
    Ext.DefaultPrecedence(o', property);
  }

  /** A setter storing into field `f` and a getter returning `f` make injection and extraction inverse. */
  lemma AccessorRoundTrip(o: Obj, property: PropertyName, f: PropertyName, v: Value)
    requires Inj.SetterName(property) in o.methods
    requires o.methods[Inj.SetterName(property)].body == Assign(f)
    requires Ext.GetterName(property) in o.methods
    requires o.methods[Ext.GetterName(property)] == Method(0, Returns(f))
    ensures var r := Inj.InjectProperty(Inj.Defaults.items, o, property, v);
      && r.Ok? && r.value.1 == Inj.Setter
      && r.value.0.calls == o.calls + [Call(Inj.SetterName(property), [v])]
      && Ext.ExtractProperty(Ext.Defaults.items, r.value.0, property) == Ok(v)
  {
    Inj.DefaultPrecedence(o, property, v);
    var o' := Inj.InjectProperty(Inj.Defaults.items, o, property, v).value.0;
    assert o' == Inj.Inject(Inj.Setter, o, property, v).value;
    assert o'.fields[f].value == v;
    Ext.DefaultPrecedence(o', property);
  }
}

=== FILE: scenarios.dfy ===
/**
  The behaviours `ReflectionObjectTest` exercises, and the constructor
  parameter rule of `ReflectionClass`, stated on concrete objects.
 */
module Scenarios {
  import opened Results
  import opened Objects
  import opened Naming
  import opened Properties
  import opened TypedCollections
  import Inj = InjectionStrategies
  import Ext = ExtractionStrategies
  import RO = ReflectionObject
  import RC = ReflectionClass

  /** An object with no member at all, like a fresh `stdClass`. */
  const Empty: Obj := Obj(0, map[], map[], [])

  /** The anonymous class of the build tests: fields a, b, c, d, a setter `setC`, a method `d($value)`. */
  const Target: Obj := Obj(
    1,
    map["a" := Field(Private, Null), "b" := Field(Protected, Null), "c" := Field(Private, Null), "d" := Field(Private, Null)],
    map["setC" := Method(1, Assign("c")), "d" := Method(1, Assign("d")), "dump" := Method(0, Nothing)],
    [])

  /** The test's `dump()`: the values of fields a, b, c and d. */
  function Dump(o: Obj): seq<Value> {
    [ValueOf(o, "a"), ValueOf(o, "b"), ValueOf(o, "c"), ValueOf(o, "d")]
  }

  function ValueOf(o: Obj, f: PropertyName): Value {
    if f in o.fields then o.fields[f].value else Null
  }

  /** A builder over `o` with every other argument omitted. */
  lemma DefaultBuilder(o: Obj)
    ensures RO.New(Object(o), None, None, None) == Ok(RO.ObjectBuilder(o, [], Inj.Defaults, Ext.Defaults))
  {
  }

  lemma NamesOfSingleLetters()
    ensures Camelize("a") == "A" && Camelize("b") == "B" && Camelize("c") == "C" && Camelize("d") == "D"
    ensures AccessorName("a") == "a" && AccessorName("b") == "b" && AccessorName("c") == "c" && AccessorName("d") == "d"
    ensures Inj.SetterName("c") == "setC"
  {
    AccessorNameOfLowerCamel("a");
    AccessorNameOfLowerCamel("b");
    AccessorNameOfLowerCamel("c");
    AccessorNameOfLowerCamel("d");
  }

  /** A builder over a fresh `stdClass` has nothing pending, and building returns that very object. */
  lemma BuildWithoutProperties()
    ensures var b := RO.New(Object(Empty), None, None, None);
      && b.Ok? && b.value.properties == []
      && RO.BuildObject(b.value) == RO.Outcome(Empty, [], None)
  {
  }

  /** A builder cannot wrap something that is not an object. */
  lemma RejectNonObject()
    ensures RO.New(Array([]), None, None, None) == Err(InvalidArgument)
  {
  }

  /** `withProperty` gives a different builder holding exactly foo => bar; the receiver still holds nothing. */
  lemma AddPropertyToInject()
    ensures var b := RO.New(Object(Empty), None, None, None).value;
      var b2 := RO.WithProperty(b, "foo", Str("bar"));
      && b2 != b && b.properties == [] && b2.properties == [("foo", Str("bar"))]
  {
  }

  /** The build test's object after each of its four injections. */
  const AfterA: Obj := Target.(fields := Target.fields["a" := Field(Private, Int(1))])
  const AfterB: Obj := AfterA.(fields := AfterA.fields["b" := Field(Protected, Int(2))])
  const AfterC: Obj := AfterB.(fields := AfterB.fields["c" := Field(Private, Int(3))], calls := [Call("setC", [Int(3)])])
  const AfterD: Obj := AfterC.(fields := AfterC.fields["d" := Field(Private, Int(4))], calls := AfterC.calls + [Call("d", [Int(4)])])

  const BuildProperties: Props := [("a", Int(1)), ("b", Int(2)), ("c", Int(3)), ("d", Int(4))]

  lemma StageBuildProperties(b: RO.ObjectBuilder)
    requires b.properties == []
    ensures RO.WithProperty(RO.WithProperty(RO.WithProperty(RO.WithProperty(b, "a", Int(1)), "b", Int(2)), "c", Int(3)), "d", Int(4))
      == b.(properties := BuildProperties)
  {
    assert Set([], "a", Int(1)) == [("a", Int(1))];
    assert Set([("a", Int(1))], "b", Int(2)) == [("a", Int(1)), ("b", Int(2))];
    assert Set([("a", Int(1)), ("b", Int(2))], "c", Int(3)) == [("a", Int(1)), ("b", Int(2)), ("c", Int(3))];
    assert Set([("a", Int(1)), ("b", Int(2)), ("c", Int(3))], "d", Int(4)) == BuildProperties;
  }

  lemma InjectA()
    ensures Inj.InjectProperty(Inj.Defaults.items, Target, "a", Int(1)) == Ok((AfterA, Inj.Reflection))
  {
    NamesOfSingleLetters();
    assert Inj.SetterName("a") == "setA";
    Inj.DefaultPrecedence(Target, "a", Int(1));
  }

  lemma InjectB()
    ensures Inj.InjectProperty(Inj.Defaults.items, AfterA, "b", Int(2)) == Ok((AfterB, Inj.Reflection))
  {
    NamesOfSingleLetters();
    assert Inj.SetterName("b") == "setB";
    Inj.DefaultPrecedence(AfterA, "b", Int(2));
  }

  lemma InjectC()
    ensures Inj.InjectProperty(Inj.Defaults.items, AfterB, "c", Int(3)) == Ok((AfterC, Inj.Setter))
  {
    NamesOfSingleLetters();
    Inj.DefaultPrecedence(AfterB, "c", Int(3));
    assert Invoke(AfterB, "setC", [Int(3)]).0 == AfterC;
  }

  lemma InjectD()
    ensures Inj.InjectProperty(Inj.Defaults.items, AfterC, "d", Int(4)) == Ok((AfterD, Inj.NamedMethod))
  {
    NamesOfSingleLetters();
    assert Inj.SetterName("d") == "setD";
    Inj.DefaultPrecedence(AfterC, "d", Int(4));
  }

  const InjectedD: seq<RO.Injection> := [RO.Injection("d", Inj.NamedMethod)]
  const InjectedC: seq<RO.Injection> := [RO.Injection("c", Inj.Setter), RO.Injection("d", Inj.NamedMethod)]
  const InjectedB: seq<RO.Injection> := [RO.Injection("b", Inj.Reflection)] + InjectedC
  const InjectedA: seq<RO.Injection> := [
    RO.Injection("a", Inj.Reflection), RO.Injection("b", Inj.Reflection),
    RO.Injection("c", Inj.Setter), RO.Injection("d", Inj.NamedMethod)]

  lemma InjectFromD()
    ensures RO.InjectAll(Inj.Defaults.items, AfterC, BuildProperties[3..]) == RO.Outcome(AfterD, InjectedD, None)
  {
    InjectD();
    RO.InjectAllStep(Inj.Defaults.items, AfterC, BuildProperties[3..], AfterD, Inj.NamedMethod);
    assert BuildProperties[3..][1..] == [];
  }

  lemma InjectFromC()
    ensures RO.InjectAll(Inj.Defaults.items, AfterB, BuildProperties[2..]) == RO.Outcome(AfterD, InjectedC, None)
  {
    InjectC();
    RO.InjectAllStep(Inj.Defaults.items, AfterB, BuildProperties[2..], AfterC, Inj.Setter);
    assert BuildProperties[2..][1..] == BuildProperties[3..];
    InjectFromD();
  }

  lemma InjectFromB()
    ensures RO.InjectAll(Inj.Defaults.items, AfterA, BuildProperties[1..]) == RO.Outcome(AfterD, InjectedB, None)
  {
    InjectB();
    RO.InjectAllStep(Inj.Defaults.items, AfterA, BuildProperties[1..], AfterB, Inj.Reflection);
    assert BuildProperties[1..][1..] == BuildProperties[2..];
    InjectFromC();
  }

  lemma InjectBuildProperties()
    ensures RO.InjectAll(Inj.Defaults.items, Target, BuildProperties) == RO.Outcome(AfterD, InjectedA, None)
  {
    InjectA();
    RO.InjectAllStep(Inj.Defaults.items, Target, BuildProperties, AfterA, Inj.Reflection);
    InjectFromB();
    InjectedInOrder();
  }

  lemma InjectedInOrder()
    ensures [RO.Injection("a", Inj.Reflection)] + InjectedB == InjectedA
  {
    assert ([RO.Injection("a", Inj.Reflection)] + InjectedB)[1..] == InjectedB;
  }

  /** a and b are written as fields, c through `setC`, d through `d($value)`: dump gives [1, 2, 3, 4]. */
  lemma Build()
    ensures var b := RO.New(Object(Target), None, None, None).value;
      var r := RO.BuildObject(
        RO.WithProperty(RO.WithProperty(RO.WithProperty(RO.WithProperty(b, "a", Int(1)), "b", Int(2)), "c", Int(3)), "d", Int(4)));
      && r.error.None? && r.target.id == Target.id
      && r.injected == [
        RO.Injection("a", Inj.Reflection), RO.Injection("b", Inj.Reflection),
        RO.Injection("c", Inj.Setter), RO.Injection("d", Inj.NamedMethod)]
      && r.target.calls == [Call("setC", [Int(3)]), Call("d", [Int(4)])]
      && Dump(r.target) == [Int(1), Int(2), Int(3), Int(4)]
  {
    DefaultBuilder(Target);
    var b := RO.ObjectBuilder(Target, [], Inj.Defaults, Ext.Defaults);
    StageBuildProperties(b);
    var b4 := b.(properties := BuildProperties);
    assert RO.BuildObject(b4) == RO.InjectAll(Inj.Defaults.items, Target, BuildProperties);
    InjectBuildProperties();
    DumpAfterBuild();

  }

  lemma DumpAfterBuild()
    ensures AfterD.id == Target.id && AfterD.calls == [Call("setC", [Int(3)]), Call("d", [Int(4)])]
    ensures Dump(AfterD) == [Int(1), Int(2), Int(3), Int(4)]
  {
  }

  const StagedAB: Props := [("a", Int(1)), ("b", Int(2))]
  const StagedCD: Props := [("c", Int(3)), ("d", Int(4))]

  lemma MergeStaged()
    ensures Merge([], StagedAB) == StagedAB
    ensures Merge(StagedAB, StagedCD) == BuildProperties
  {
    assert StagedAB[1..] == [("b", Int(2))];
    assert Set([], "a", Int(1)) == [("a", Int(1))];
    assert Set([("a", Int(1))], "b", Int(2)) == StagedAB;
    assert StagedCD[1..] == [("d", Int(4))];
    assert Set(StagedAB, "c", Int(3)) == [("a", Int(1)), ("b", Int(2)), ("c", Int(3))];
    assert Set([("a", Int(1)), ("b", Int(2)), ("c", Int(3))], "d", Int(4)) == BuildProperties;
  }

  /** Two chained `withProperties` calls stage the same properties, in the same order, as four `withProperty` calls. */
  lemma BuildWithProperties()
    ensures var b := RO.New(Object(Target), None, None, None).value;
      RO.WithProperties(RO.WithProperties(b, StagedAB), StagedCD)
      == RO.WithProperty(RO.WithProperty(RO.WithProperty(RO.WithProperty(b, "a", Int(1)), "b", Int(2)), "c", Int(3)), "d", Int(4))
  {
    DefaultBuilder(Target);
    var b := RO.ObjectBuilder(Target, [], Inj.Defaults, Ext.Defaults);
    StageBuildProperties(b);
    MergeStaged();
  }

  lemma InjectMessage()
    ensures Inj.CannotInject("a") == "Property \"a\" cannot be injected"
  {
  }

  lemma ExtractMessage()
    ensures Ext.CannotExtract("a") == "Property \"a\" cannot be extracted"
  {
  }

  const StagedA: Props := [("a", Int(1))]

  lemma StageA(b: RO.ObjectBuilder)
    requires b.properties == []
    ensures RO.WithProperty(b, "a", Int(1)) == b.(properties := StagedA)
  {
    assert Set([], "a", Int(1)) == StagedA;
  }

  lemma EmptyUnsupported()
    ensures Inj.InjectProperty(Inj.Defaults.items, Empty, "a", Int(1)) == Err(Logic(Inj.CannotInject("a")))
  {
  }

  /** With no member to write to, building fails with `Property "a" cannot be injected`. */
  lemma ThrowWhenPropertyNotFound()
    ensures var b := RO.New(Object(Empty), None, None, None).value;
      RO.BuildObject(RO.WithProperty(b, "a", Int(1)))
      == RO.Outcome(Empty, [], Some(Logic("Property \"a\" cannot be injected")))
  {
    DefaultBuilder(Empty);
    StageA(RO.ObjectBuilder(Empty, [], Inj.Defaults, Ext.Defaults));
    EmptyUnsupported();
    RO.InjectAllStop(Inj.Defaults.items, Empty, StagedA, Logic(Inj.CannotInject("a")));
    InjectMessage();
  }

  /** An object whose only member is a method `a()` taking no parameter. */
  const ParameterlessA: Obj := Obj(2, map[], map["a" := Method(0, Nothing)], [])

  lemma ParameterlessAUnsupported()
    ensures Inj.InjectProperty(Inj.Defaults.items, ParameterlessA, "a", Int(1)) == Err(Logic(Inj.CannotInject("a")))
  {
    NamesOfSingleLetters();
    assert Inj.SetterName("a") == "setA";
    Inj.ZeroParameterMethodUnsupported(ParameterlessA, "a", Int(1));
    Inj.DefaultPrecedence(ParameterlessA, "a", Int(1));
  }

  /** A method `a()` without parameter does not make property a injectable. */
  lemma ThrowWhenNamedMethodHasNoParameter()
    ensures var b := RO.New(Object(ParameterlessA), None, None, None).value;
      RO.BuildObject(RO.WithProperty(b, "a", Int(1)))
      == RO.Outcome(ParameterlessA, [], Some(Logic("Property \"a\" cannot be injected")))
  {
    DefaultBuilder(ParameterlessA);
    StageA(RO.ObjectBuilder(ParameterlessA, [], Inj.Defaults, Ext.Defaults));
    ParameterlessAUnsupported();
    RO.InjectAllStop(Inj.Defaults.items, ParameterlessA, StagedA, Logic(Inj.CannotInject("a")));
    InjectMessage();
  }

  /** The default lists hold three strategies in precedence order; a supplied list is kept as given. */
  lemma StrategyLists()
    ensures var b := RO.New(Object(Empty), None, None, None).value;
      && b.injectionStrategies == Typed(InjectionStrategyInterface, [Inj.Setter, Inj.NamedMethod, Inj.Reflection])
      && b.extractionStrategies == Typed(ExtractionStrategyInterface, [Ext.Getter, Ext.NamedMethod, Ext.Reflection])
    ensures var b := RO.New(Object(Empty), None, Some(Typed(InjectionStrategyInterface, [Inj.Reflection])), None).value;
      b.injectionStrategies.items == [Inj.Reflection]
    ensures var b := RO.New(Object(Empty), None, None, Some(Typed(ExtractionStrategyInterface, [Ext.Getter]))).value;
      b.extractionStrategies.items == [Ext.Getter]
  {
  }

  /** The extraction test's object: a public field a = 24, `getB()` returning 42, `c()` returning 66. */
  const Readable: Obj := Obj(3, map["a" := Field(Public, Int(24))],
    map["getB" := Method(0, Constant(Int(42))), "c" := Method(0, Constant(Int(66)))], [])

  lemma ExtractA()
    ensures Ext.ExtractProperty(Ext.Defaults.items, Readable, "a") == Ok(Int(24))
  {
    NamesOfSingleLetters();
    assert Ext.GetterName("a") == "getA";
    Ext.DefaultPrecedence(Readable, "a");
  }

  lemma ExtractB()
    ensures Ext.ExtractProperty(Ext.Defaults.items, Readable, "b") == Ok(Int(42))
  {
    NamesOfSingleLetters();
    assert Ext.GetterName("b") == "getB";
    Ext.DefaultPrecedence(Readable, "b");
  }

  lemma ExtractC()
    ensures Ext.ExtractProperty(Ext.Defaults.items, Readable, "c") == Ok(Int(66))
  {
    NamesOfSingleLetters();
    assert Ext.GetterName("c") == "getC";
    Ext.DefaultPrecedence(Readable, "c");
  }

  const ReadA: Props := [("a", Int(24))]
  const ReadB: Props := [("a", Int(24)), ("b", Int(42))]
  const ReadC: Props := [("a", Int(24)), ("b", Int(42)), ("c", Int(66))]

  lemma GatherReads()
    ensures Set([], "a", Int(24)) == ReadA
    ensures Set(ReadA, "b", Int(42)) == ReadB
    ensures Set(ReadB, "c", Int(66)) == ReadC
  {
    assert Set([], "a", Int(24)) == ReadA;
    assert Set(ReadA, "b", Int(42)) == ReadB;
  }

  lemma ExtractIntoC()
    ensures Ext.ExtractInto(Ext.Defaults.items, Readable, ["c"], ReadB) == Ok(ReadC)
  {
    ExtractC();
    GatherReads();
    Ext.ExtractIntoStep(Ext.Defaults.items, Readable, ["c"], ReadB, Int(66));
  }

  lemma ExtractIntoB()
    ensures Ext.ExtractInto(Ext.Defaults.items, Readable, ["b", "c"], ReadA) == Ok(ReadC)
  {
    ExtractB();
    GatherReads();
    Ext.ExtractIntoStep(Ext.Defaults.items, Readable, ["b", "c"], ReadA, Int(42));
    ExtractIntoC();
  }

  /** The public field a, the getter of b and the method c are read, in the requested order. */
  lemma ExtractInRequestedOrder()
    ensures RO.Extract(RO.New(Object(Readable), None, None, None).value, ["a", "b", "c"]) == Ok(ReadC)
  {
    DefaultBuilder(Readable);
    ExtractA();
    GatherReads();
    Ext.ExtractIntoStep(Ext.Defaults.items, Readable, ["a", "b", "c"], [], Int(24));
    ExtractIntoB();
  }

  lemma NothingReadable()
    ensures Ext.ExtractProperty(Ext.Defaults.items, Empty, "a") == Err(Logic(Ext.CannotExtract("a")))
  {
  }

  /** Nothing can read property a of a fresh `stdClass`. */
  lemma ThrowWhenCannotExtractProperty()
    ensures RO.Extract(RO.New(Object(Empty), None, None, None).value, ["a"])
      == Err(Logic("Property \"a\" cannot be extracted"))
  {
    DefaultBuilder(Empty);
    NothingReadable();
    Ext.ExtractIntoStop(Ext.Defaults.items, Empty, ["a"], [], Logic(Ext.CannotExtract("a")));
    ExtractMessage();
  }

  /** A class whose constructor takes `a` and which also has a setter `setA`. */
  const WithConstructor: RC.InstanciatorImpl := RC.InstanciatorImpl(
    (className: string, ps: Props) =>
      Obj(7, map["a" := Field(Private, if "a" in ToMap(ps) then ToMap(ps)["a"] else Null)],
        map["setA" := Method(1, Assign("a"))], []),
    (className: string) => {"a"})

  /** A value handed to the constructor is never pushed through the setter as well. */
  lemma ConstructorParameterNotReinjected(v: Value)
    ensures var b := RC.New("Foo", None, None, Some(RC.Custom(WithConstructor))).value;
      var r := RC.BuildObject(RC.WithProperty(b, "a", v), WithConstructor);
      && r == RO.Outcome(r.target, [], None)
      && r.target.calls == [] && r.target.fields["a"].value == v
  {
    var b := RC.New("Foo", None, None, Some(RC.Custom(WithConstructor))).value;
    var b1 := RC.WithProperty(b, "a", v);
    assert Keys(b1.properties) == ["a"];
    RC.AllConstructorParameters(b1, WithConstructor);
  }

  /** A strategy collection typed with some other interface is refused; by default every argument takes its default. */
  lemma ClassBuilderConstruction()
    ensures RC.New("Foo", None, Some(Typed(OtherInterface("stdClass"), [])), None) == Err(InvalidArgument)
    ensures RC.New("Foo", None, None, None) == Ok(RC.ClassBuilder("Foo", [], Inj.Defaults, RC.ReflectionInstanciator))
  {
  }
}

=== FILE: typed.dfy ===
/** Innmind's `TypedCollection`: an ordered list tagged with the interface its elements implement. */
module TypedCollections {

  /** The interface names a typed collection of strategies can be tagged with. */
  datatype Interface =
    | InjectionStrategyInterface
    | ExtractionStrategyInterface
    | OtherInterface(name: string)

  datatype Typed<T> = Typed(elementType: Interface, items: seq<T>)
}
